=== FILE: README.md ===
# Market dashboard analytics — a Dafny model

The dashboard (`pages/03_added.py`) charts the price history of the largest
listed companies and of the ETFs of Ray Dalio's "all-weather" portfolio. Behind
each chart it shades a fixed catalogue of market crises, and it tabulates each
series' performance. Almost all of the page is Streamlit, yfinance and plotly
glue. This project lifts out the few pure rules inside it and proves what they
do:

- **Crisis overlay** (`Crisis`, `Overlay`): walks the `CRISIS_PERIODS` catalogue
  in insertion order. A window is drawn unless it ends before the display
  window starts or starts after it ends. This is a closed-interval test, so
  touching endpoints count as overlapping.
- **Lookback resolution** (`Lookback`): each page turns its period code into a
  display window ending at "now". It goes back 365 days per year. The company
  page knows `1y/2y/3y/5y` and the all-weather page knows `1y/3y/5y/10y`. Any
  other code silently becomes three years.
- **Series arithmetic** (`Series`): rebases closes to 100 at the first
  observation and derives the all-weather performance rows. Builds the company
  performance rows: start, end, return, high and low. Also models which fetched
  series are kept.
- **Market-cap tiers** (`MarketCap`): the descending cascade of
  `format_market_cap` picks the T/B/M/plain tier and its divisor.

Instants (`Calendar`) are integer microseconds, the resolution of a naive Python
`datetime`. Date literals go through the algorithm of `date.toordinal`.
`datetime.now()` carries a time of day while the catalogue holds midnights, so
the overlap test depends on that time of day on the boundary day
(`Crisis.TimeOfDayMatters`). "Now" is a parameter. Closes are exact `real`s
standing in for IEEE doubles.

Three behaviours of the program worth knowing:

- An unrecognised period code silently falls back to three years
  (`pages/03_added.py:177-178`, `365-366`).
- Volatility is pandas' sample `.std()` (divisor n − 1). It is not modelled
  (see below).
- Normalisation only ever runs on non-empty frames, which the page filters at
  `pages/03_added.py:373`.

## Model

| member | source | states |
|---|---|---|
| `Calendar.DaysBeforeMonth` | pages/03_added.py:43-45 | The days before a month equal the common-year table (0, 31, 59, …, 334) plus one leap day after February. The month fits inside its year, and December ends on the year's last day. |
| `Calendar.DaysBeforeNextYear` | pages/03_added.py:43-45 | The days before year y + 1 exceed those before y by y's length: 366 for Gregorian leap years, 365 otherwise. |
| `Calendar.Ordinal` | pages/03_added.py:43-45 | The ordinal of a `datetime(y, m, d)` literal is at least 1, and lies after every day of earlier years and within its own year. |
| `Calendar.OrdinalOfNextDay` | pages/03_added.py:43-45 | The next calendar day has the next ordinal, across month ends, year ends and leap days, so its midnight is exactly one day later. |
| `Calendar.OrdinalAnchors` | pages/03_added.py:43 | 1970-01-01 has ordinal 719163 and 2020-02-19 has ordinal 737474, as Python's `date.toordinal` gives. |
| `Calendar.Midnight` | pages/03_added.py:43-45 | A date literal is an instant with no time of day whose day count is the date's ordinal. |
| `Calendar.Days` | pages/03_added.py:170-178 | `timedelta(days = n)` is a whole number of days that converts back to n. |
| `Crisis.CrisisPeriods` | pages/03_added.py:42-48 | The catalogue has three entries in insertion order. Their names are distinct, since they are dictionary keys, and each window starts no later than it ends. |
| `Crisis.CatalogueDays` | pages/03_added.py:43-45 | The six bounds are the midnights of ordinal days 737474, 737516, 738156, 738520, 738587 and 738599, i.e. 2020-02-19, 2020-04-01, 2022-01-01, 2022-12-31, 2023-03-08 and 2023-03-20. |
| `Crisis.Overlaps` | pages/03_added.py:97 | For non-empty intervals, a window is drawn iff the later of the two starts lies in both the crisis window and the display window. |
| `Crisis.OverlapsIffSharedInstant` | pages/03_added.py:97 | For non-empty intervals, the drawing test holds iff the crisis window and the display window share at least one instant. Touching endpoints count as sharing. |
| `Crisis.SelectOverlapping` | pages/03_added.py:89-98 | Every drawn window is a catalogue entry that passes the closed-interval test, and every catalogue entry that passes it is drawn. Never more windows than entries. |
| `Crisis.SelectedPositions` | pages/03_added.py:91-97 | Positions of the drawn entries are strictly increasing, in range, and include position i iff entry i overlaps the display window. |
| `Crisis.SelectionIsOrderedSubsequence` | pages/03_added.py:91-98 | The drawn windows are the catalogue read at those increasing positions: catalogue order is kept, each overlapping entry appears exactly once and nothing else appears. |
| `Crisis.SelectionMultiplicity` | pages/03_added.py:91-98 | Every window is drawn as many times as it occurs in the catalogue if it overlaps, and zero times otherwise. An empty catalogue draws nothing. |
| `Crisis.AddCrisisRegions` | pages/03_added.py:89-98 | The single-pass loop over the catalogue draws exactly the filtered selection, in the same order. |
| `Crisis.DisjointDisplayDrawsNothing` | pages/03_added.py:97 | A display window lying wholly before or after every catalogue window draws nothing. |
| `Crisis.SelectFromCatalogue` | pages/03_added.py:42-48 | Over the dashboard's three-entry catalogue (filtered at lines 91-97), the drawn windows are the pandemic, 2022 and SVB windows that pass the test, each in that order. |
| `Crisis.TouchingEndpointIsDrawn` | pages/03_added.py:89-97 | A display window 2020-01-01 to 2020-02-19 draws the pandemic window, which opens on 2020-02-19, and draws nothing else. |
| `Crisis.TimeOfDayMatters` | pages/03_added.py:89-97 | A display start one microsecond after the pandemic window's closing midnight, on the same day, no longer draws that window. |
| `Lookback.LookbackDays` | pages/03_added.py:168-178 | A code listed in the page's table (this page, and lines 356-366 for the all-weather page) gets its table entry. Any other code gets the 1095-day fallback. |
| `Lookback.PeriodOptions` | pages/03_added.py:141-146 | Each page's sidebar (this one, and lines 341-346 for the all-weather page) offers four options. Labels are pairwise distinct, codes are pairwise distinct, and every code is listed in that page's table. |
| `Lookback.DefaultOption` | pages/03_added.py:148-152 | The pre-selected index (this page, and lines 349-353 for the all-weather page) is a valid option index and selects the code "3y". |
| `Lookback.Resolve` | pages/03_added.py:168-178 | The company page's window, and the all-weather page's window (lines 356-366), ends at now. It reaches back a whole number of days, between 365 and 3650, so start is at most end for every code. |
| `Lookback.ResolveIsTableLookupWithDefault` | pages/03_added.py:356-366 | For either page, the if/elif cascade equals a lookup in that page's table (1y:365, 2y:730, 3y:1095, 5y:1825 or 1y:365, 3y:1095, 5y:1825, 10y:3650). Any unlisted code gets the 1095-day default. |
| `Lookback.SidebarNeverFallsBack` | pages/03_added.py:141-153 | Every code offered by a page's sidebar (this page's options, and lines 341-353 for the other) is listed in that page's cascade. The pre-selected option resolves to three years. |
| `Lookback.ListedCodesAreDistinguished` | pages/03_added.py:168-176 | Two different listed codes of a page resolve to different windows. |
| `Lookback.CodeSetsDiffer` | pages/03_added.py:356-366 | "2y" falls back to three years on the all-weather page, and "10y" falls back to three years on the company page. Each gets its own offset on the other page. |
| `Overlay.OverlayFor` | pages/03_added.py:405-406 | Only catalogue entries are shaded behind a chart. An entry is shaded iff it meets the closed interval from now minus the page's lookback up to now. |
| `Overlay.LongerLookbackDrawsMore` | pages/03_added.py:356-366 | A longer lookback never hides a window that a shorter one draws. |
| `Overlay.OneYearExample` | pages/03_added.py:168-170 | At noon on 2026-10-10 a one-year company chart shades nothing. |
| `Overlay.FiveYearExample` | pages/03_added.py:175-176 | At that instant a five-year company chart shades the 2022 and SVB windows, in that order. |
| `Overlay.TenYearExample` | pages/03_added.py:363-364 | At that instant a ten-year all-weather chart shades all three windows, in catalogue order. |
| `Series.Normalize` | pages/03_added.py:376-377 | The rebased series has the same length, starts at exactly 100, and satisfies norm[i] × close[0] = close[i] × 100 for every i. |
| `Series.NormalizeRoundTrip` | pages/03_added.py:374-377 | Scaling the rebased series back by the first close recovers the original closes exactly. |
| `Series.NormalizeIdempotent` | pages/03_added.py:376-377 | Rebasing an already rebased series against its own first value, 100, changes nothing. |
| `Series.NormalizeScaleInvariant` | pages/03_added.py:376-377 | Multiplying every close by the same non-zero factor does not change the rebased series. |
| `Series.NormalizePreservesOrder` | pages/03_added.py:376-377 | With a positive first close, close[i] ≤ close[j] iff norm[i] ≤ norm[j]. |
| `Series.WithNormalizedClose` | pages/03_added.py:376-378 | Adding the normalised column leaves every existing row of the frame unchanged. The new column starts at 100 and is each close as a percentage of the first. |
| `Series.MaxClose` | pages/03_added.py:282 | The maximum is one of the closes and no close exceeds it. |
| `Series.MinClose` | pages/03_added.py:283 | The minimum is one of the closes and no close is below it. |
| `Series.ReturnPct` | pages/03_added.py:280 | The return is defined iff the start price is non-zero, and then return × start = (end − start) × 100. |
| `Series.Summarize` | pages/03_added.py:277-283 | For a non-empty series: start is the first close and end the last. Min and max bound every close and are attained, so min ≤ start, end ≤ max. The return is defined iff start ≠ 0. |
| `Series.SingletonSummary` | pages/03_added.py:277-283 | For one observation, min = max = start = end. The return is 0 when the price is non-zero and undefined when it is zero. |
| `Series.SummarizeExample` | pages/03_added.py:277-283 | Closes 100, 110, 90 summarise to start 100, end 90, return −10, high 110, low 90. |
| `Series.NormalizeExample` | pages/03_added.py:376-377 | Closes 50, 110, 90 rebase to 100, 220, 180. |
| `Series.AllWeatherSummary` | pages/03_added.py:424-431 | The all-weather row starts its normalised price at 100. Its last-minus-first return is the same percentage the company page computes from raw closes. |
| `Series.NormalizedReturnIsTotalReturn` | pages/03_added.py:426-428 | norm[last] − norm[0] = (close[last] − close[0]) / close[0] × 100. |
| `Series.Loaded` | pages/03_added.py:181-190 | A symbol is kept iff its fetch did not fail and returned a non-empty series. Kept series are non-empty and each comes from the fetched list. Their order and multiplicity are stated by `Series.LoadedIsOrderedSubsequence`. Lines 371-380 follow the same pattern. The page keys kept frames by name in a dictionary; a list is equivalent because no name repeats. The company names come from a multiselect over distinct keys (line 130), and the asset names are the keys of `ALL_WEATHER_ASSETS` (line 371). |
| `Series.UsablePositions` | pages/03_added.py:181-190 | The positions of the usable fetches are strictly increasing and in range, and include position i iff fetch i succeeded with a non-empty series. |
| `Series.LoadedIsOrderedSubsequence` | pages/03_added.py:181-190 | The kept symbols are the fetches read at those increasing positions: selection order is kept, each usable fetch is kept exactly once and nothing else is kept. |
| `Series.PerformanceTable` | pages/03_added.py:275-294 | The table never has more rows than there are series. When every series is non-empty, there is exactly one row per series, in order, each the summary of its series. The general case is stated by `Series.TableIsOrderedSubsequence`. |
| `Series.RowPositions` | pages/03_added.py:276-277 | The positions of the series that get a row are strictly increasing and in range. They include position i iff series i is non-empty. |
| `Series.TableIsOrderedSubsequence` | pages/03_added.py:275-294 | The table is the series read at those increasing positions. Each row carries its series' name and summary. Series order is kept, every non-empty series has exactly one row, and empty series have none. |
| `Series.TableCoversLoaded` | pages/03_added.py:276-277 | Because loading already drops empty series, the table's own emptiness guard never skips one: one row per loaded symbol. |
| `Subsequences.Filter` | pages/03_added.py:91-97 | A single-pass filter keeps only elements that pass the test and drop nothing that does. It never grows the list. The same filter shape appears at lines 181-190 and 276-277. |
| `Subsequences.Where` | pages/03_added.py:91-97 | The positions a single-pass filter keeps are strictly increasing and in range, and include position i iff element i passes the test. |
| `Subsequences.FilterIsRead` | pages/03_added.py:91-97 | The filter's output is the list read at those increasing positions: order is kept, each passing element appears once, nothing else appears. |
| `Subsequences.FilterMultiplicity` | pages/03_added.py:91-97 | A passing value is kept as many times as it occurs, and a failing value is never kept. |
| `Subsequences.FilterKeepsAll` | pages/03_added.py:276-277 | When every element passes, the filter returns the list unchanged. |
| `Subsequences.FilterOfThree` | pages/03_added.py:91-97 | On a three-element list the filter is three independent tests concatenated in order. |
| `MarketCap.Suffix` | pages/03_added.py:80-87 | Trillions get "T", billions "B" and millions "M", and each of those letters names only that tier. The plain tier, and only it, gets no letter. |
| `MarketCap.SuffixByThreshold` | pages/03_added.py:80-87 | End to end, the shown letter is "T" iff cap ≥ 1e12, "B" iff 1e9 ≤ cap < 1e12, "M" iff 1e6 ≤ cap < 1e9, and empty iff cap < 1e6. |
| `MarketCap.Divisor` | pages/03_added.py:80-85 | Every divisor is at least 1. A scaled tier's divisor (1e12, 1e9 or 1e6) lies in its own band and is its least amount. |
| `MarketCap.TierOf` | pages/03_added.py:78-86 | The cascade picks a tier whose band (≥1e12; [1e9, 1e12); [1e6, 1e9); <1e6) holds the amount. It is the only such tier, since the bands partition the line. |
| `MarketCap.FormatMarketCap` | pages/03_added.py:78-87 | The shown amount times the tier's divisor equals the market cap. Scaled tiers show at least 1, and B and M show less than 1000. The plain tier shows the amount itself, which is below one million. The suffix is the tier's letter. |
| `MarketCap.TierMonotone` | pages/03_added.py:80-86 | A larger market cap never gets a smaller tier. |
| `MarketCap.MissingCapShownPlain` | pages/03_added.py:84-87 | A market cap of 0 (the default when the info lookup fails) is shown unscaled as 0, with no suffix. |

## Left out

- Fetching with yfinance and `@st.cache_data` memoisation (lines 51-76) are left out: network I/O and library caching. A fetch is a parameter of `Series.Loaded`.
- Streamlit widgets, layout, warnings and errors are left out, as are plotly figures, traces and the `add_vrect` styling arguments. They are presentation only. The sidebar option tables and default indices are kept as data in `Lookback.PeriodOptions` and `Lookback.DefaultOption`.
- The volatility column `Close.std()` (line 284) is left out. It is the pandas sample standard deviation (divisor n − 1, NaN for one observation), and it needs a square root and float semantics.
- The `:.2f` and `:,.0f` text rendering is left out, both in `format_market_cap` and in the tables. Only the tier, suffix and divisor are modelled.
- IEEE-754 rounding is left out. Closes and market caps are exact reals, so identities such as a first normalised value of exactly 100 are stated for exact arithmetic.
- `datetime.now()` is a parameter. Time zones and DST do not arise: every datetime in the page is naive.
- `Series.Normalize`: a zero first close is excluded by the precondition. Pandas turns it into infinite or NaN values, which exact reals cannot represent.
- `Series.WithNormalizedClose`: same restriction as `Series.Normalize`.
- `Series.AllWeatherSummary`: same restriction as `Series.Normalize`. The company summary keeps zero first closes and reports the return as undefined.
- `Series.Summarize`: the volatility field is not produced; see the volatility line above.
- `pages/추가된 게시판.py`, a second all-weather page variant, is not part of this model.

=== FILE: calendar.dfy ===
/** Naive date-times as the dashboard compares them.

    A naive Python `datetime` orders exactly like the integer count of
    microseconds since midnight of proleptic Gregorian day ordinal 0, so an
    instant is that integer.  `timedelta(days = n)` is `n` whole days of
    microseconds, and a `datetime(y, m, d)` literal is the midnight that opens
    the day with ordinal `date(y, m, d).toordinal()`.
 */
module Calendar {

  /** Microseconds since midnight of day ordinal 0. */
  type Instant = int

  const MicrosPerDay: int := 86_400_000_000

  predicate IsLeapYear(year: int) {
    year % 4 == 0 && (year % 100 != 0 || year % 400 == 0)
  }

  function DaysInMonth(year: int, month: int): int
    requires 1 <= month <= 12
  {
    if month == 2 then (if IsLeapYear(year) then 29 else 28)
    else if month == 4 || month == 6 || month == 9 || month == 11 then 30
    else 31
  }

  /** The range `datetime` accepts for a calendar date. */
  predicate ValidDate(year: int, month: int, day: int) {
    1 <= year <= 9999 && 1 <= month <= 12 && 1 <= day <= DaysInMonth(year, month)
  }

  function DaysInYear(year: int): int {
    if IsLeapYear(year) then 366 else 365
  }

  function DaysBeforeYear(year: int): (n: int)
    requires 1 <= year
    ensures n >= 0
  {
    var y := year - 1;
    y * 365 + y / 4 - y / 100 + y / 400
  }

  /** Counting multiples of 4, 100 and 400 up to `y + 1` adds one exactly
      when `y + 1` is such a multiple. */
  lemma MultiplesOf4Step(y: int)
    requires 0 <= y
    ensures (y + 1) / 4 == y / 4 + (if (y + 1) % 4 == 0 then 1 else 0)
  {
  }

  lemma MultiplesOf100Step(y: int)
    requires 0 <= y
    ensures (y + 1) / 100 == y / 100 + (if (y + 1) % 100 == 0 then 1 else 0)
  {
  }

  lemma MultiplesOf400Step(y: int)
    requires 0 <= y
    ensures (y + 1) / 400 == y / 400 + (if (y + 1) % 400 == 0 then 1 else 0)
  {
  }

  /** A multiple of 400 is a multiple of 100. */
  lemma MultipleOf400IsMultipleOf100(n: int)
    requires n % 400 == 0
    ensures n % 100 == 0
  {
    var k := n / 400;
    assert n == (4 * k) * 100;
  }

  /** A multiple of 100 is a multiple of 4. */
  lemma MultipleOf100IsMultipleOf4(n: int)
    requires n % 100 == 0
    ensures n % 4 == 0
  {
    var k := n / 100;
    assert n == (25 * k) * 4;
  }

  /** Each year adds its own length to the count of days before the next. */
  lemma DaysBeforeNextYear(year: int)
    requires 1 <= year
    ensures DaysBeforeYear(year + 1) == DaysBeforeYear(year) + DaysInYear(year)
  {
    var y := year - 1;
    MultiplesOf4Step(y);
    MultiplesOf100Step(y);
    MultiplesOf400Step(y);
    var leaps := y / 4 - y / 100 + y / 400;
    var leaps' := year / 4 - year / 100 + year / 400;
    assert DaysBeforeYear(year) == y * 365 + leaps;
    assert DaysBeforeYear(year + 1) == year * 365 + leaps';
    if year % 400 == 0 {
      MultipleOf400IsMultipleOf100(year);
      MultipleOf100IsMultipleOf4(year);
      assert leaps' == leaps + 1;
    } else if year % 100 == 0 {
      MultipleOf100IsMultipleOf4(year);
      assert leaps' == leaps;
    } else if year % 4 == 0 {
      assert leaps' == leaps + 1;
    } else {
      assert leaps' == leaps;
    }
  }

  /** Days before each month in a common year, as `datetime` tabulates them. */
  const CommonDaysBeforeMonth: seq<int> := [0, 31, 59, 90, 120, 151, 181, 212, 243, 273, 304, 334]

  /** Days of `year` that precede the first of `month`: the common-year table
      plus the leap day once February is past; the month then fits inside the
      year, and December ends exactly on the year's last day. */
  function DaysBeforeMonth(year: int, month: int): (n: int)
    requires 1 <= month <= 12
    ensures n == CommonDaysBeforeMonth[month - 1] + (if month > 2 && IsLeapYear(year) then 1 else 0)
    ensures n + DaysInMonth(year, month) <= DaysInYear(year)
    ensures month == 12 ==> n + DaysInMonth(year, month) == DaysInYear(year)
    decreases month
  {
    if month == 1 then 0 else DaysBeforeMonth(year, month - 1) + DaysInMonth(year, month - 1)
  }

  /** `date(year, month, day).toordinal()`: 0001-01-01 is day 1, and every
      date of a year lies after all days of earlier years and within its own. */
  function Ordinal(year: int, month: int, day: int): (n: int)
    requires ValidDate(year, month, day)
    ensures n >= 1
    ensures DaysBeforeYear(year) < n <= DaysBeforeYear(year) + DaysInYear(year)
  {
    DaysBeforeYear(year) + DaysBeforeMonth(year, month) + day
  }

  /** The calendar day after a valid date (9999-12-31 has none). */
  function NextDay(year: int, month: int, day: int): (int, int, int)
    requires ValidDate(year, month, day)
  {
    if day < DaysInMonth(year, month) then (year, month, day + 1)
    else if month < 12 then (year, month + 1, 1)
    else (year + 1, 1, 1)
  }

  /** Ordinals count days without gaps: the next calendar day, across month
      and year ends and leap days, has the next ordinal and starts one
      `timedelta(days = 1)` later. */
  lemma OrdinalOfNextDay(year: int, month: int, day: int)
    requires ValidDate(year, month, day)
    requires (year, month, day) != (9999, 12, 31)
    ensures var (y, m, d) := NextDay(year, month, day);
            ValidDate(y, m, d)
            && Ordinal(y, m, d) == Ordinal(year, month, day) + 1
            && Midnight(y, m, d) == Midnight(year, month, day) + Days(1)
  {
    if day == DaysInMonth(year, month) && month == 12 {
      DaysBeforeNextYear(year);
    }
  }

  /** Two anchors of the ordinal count: the Unix epoch and the first day of
      the pandemic crisis window. */
  lemma OrdinalAnchors()
    ensures Ordinal(1970, 1, 1) == 719163
    ensures Ordinal(2020, 2, 19) == 737474
  {
  }

  lemma WholeDays(k: int)
    ensures (k * MicrosPerDay) % MicrosPerDay == 0 && (k * MicrosPerDay) / MicrosPerDay == k
  {
  }

  /** `datetime(year, month, day)`: the midnight that opens that day, an
      instant with no time of day whose day count is the date's ordinal. */
  function Midnight(year: int, month: int, day: int): (t: Instant)
    requires ValidDate(year, month, day)
    ensures t % MicrosPerDay == 0 && t / MicrosPerDay == Ordinal(year, month, day)
  {
    WholeDays(Ordinal(year, month, day));
    Ordinal(year, month, day) * MicrosPerDay
  }

  /** `timedelta(days = n)`: a whole number of days that converts back to `n`. */
  function Days(n: int): (span: int)
    ensures span % MicrosPerDay == 0 && span / MicrosPerDay == n
  {
    WholeDays(n);
    n * MicrosPerDay
  }
}

=== FILE: crisis.dfy ===
/** Selection of the crisis windows drawn behind a chart
    (`add_crisis_regions` and the `CRISIS_PERIODS` catalogue).

    The catalogue is walked in insertion order and every window that meets
    the chart's display window under a closed-interval test is drawn; drawing
    is a sink, so the model returns the selected windows in drawing order.
 */
module Crisis {
  import opened Calendar
  import opened Subsequences

  /** One named catalogue entry: `name: [start, end, description]`. */
  datatype CrisisWindow = CrisisWindow(name: string, start: Instant, end: Instant, description: string)

  /** The catalogue as the dashboard defines it, in insertion order: three
      entries with distinct names (they are dictionary keys), each a
      non-empty interval. */
  function CrisisPeriods(): (catalogue: seq<CrisisWindow>)
    ensures |catalogue| == 3
    ensures forall i, j :: 0 <= i < j < |catalogue| ==> catalogue[i].name != catalogue[j].name
    ensures forall i :: 0 <= i < |catalogue| ==> catalogue[i].start <= catalogue[i].end
  {
    [
    CrisisWindow("코로나19 팬데믹 쇼크",
                 Midnight(2020, 2, 19), Midnight(2020, 4, 1),
                 "코로나19 팬데믹으로 인한 급락"),
    CrisisWindow("2022년 인플레이션/금리 인상",
                 Midnight(2022, 1, 1), Midnight(2022, 12, 31),
                 "인플레이션 및 금리 인상으로 인한 시장 하락"),
    CrisisWindow("실리콘밸리 은행 파산",
                 Midnight(2023, 3, 8), Midnight(2023, 3, 20),
                 "SVB 파산으로 인한 금융시장 불안")
    ]
  }

  /** Day counts of the catalogue's bounds: each bound is the midnight of
      its date, whose proleptic Gregorian ordinal is given here. */
  lemma CatalogueDays()
    ensures CrisisPeriods()[0].start == 737474 * MicrosPerDay
    ensures CrisisPeriods()[0].end == 737516 * MicrosPerDay
    ensures CrisisPeriods()[1].start == 738156 * MicrosPerDay
    ensures CrisisPeriods()[1].end == 738520 * MicrosPerDay
    ensures CrisisPeriods()[2].start == 738587 * MicrosPerDay
    ensures CrisisPeriods()[2].end == 738599 * MicrosPerDay
  {
    assert Ordinal(2020, 2, 19) == 737474 && Ordinal(2020, 4, 1) == 737516;
    assert Ordinal(2022, 1, 1) == 738156 && Ordinal(2022, 12, 31) == 738520;
    assert Ordinal(2023, 3, 8) == 738587 && Ordinal(2023, 3, 20) == 738599;
  }

  /** The drawing test: a window is drawn unless it ends before the display
      starts or starts after the display ends.  For non-empty intervals that
      holds exactly when the later of the two starts lies in both intervals. */
  predicate Overlaps(w: CrisisWindow, displayStart: Instant, displayEnd: Instant)
    ensures w.start <= w.end && displayStart <= displayEnd ==>
              (Overlaps(w, displayStart, displayEnd)
               <==> Within(Later(w.start, displayStart), w.start, w.end)
                    && Within(Later(w.start, displayStart), displayStart, displayEnd))
  {
    !(w.end < displayStart || w.start > displayEnd)
  }

  function Later(a: Instant, b: Instant): Instant {
    if a < b then b else a
  }

  predicate Within(t: Instant, lo: Instant, hi: Instant) {
    lo <= t <= hi
  }

  /** For non-empty intervals the drawing test is exactly "the two closed
      intervals share an instant", touching endpoints included. */
  lemma OverlapsIffSharedInstant(w: CrisisWindow, displayStart: Instant, displayEnd: Instant)
    requires w.start <= w.end && displayStart <= displayEnd
    ensures Overlaps(w, displayStart, displayEnd)
            <==> exists t :: Within(t, w.start, w.end) && Within(t, displayStart, displayEnd)
  {
    if Overlaps(w, displayStart, displayEnd) {
      var t := if w.start < displayStart then displayStart else w.start;
      assert Within(t, w.start, w.end) && Within(t, displayStart, displayEnd);
    }
  }

  /** The drawing test for one display window, as a filter predicate. */
  function Meets(displayStart: Instant, displayEnd: Instant): CrisisWindow -> bool {
    w => Overlaps(w, displayStart, displayEnd)
  }

  /** The windows drawn for a display window, in catalogue order. */
  function SelectOverlapping(catalogue: seq<CrisisWindow>, displayStart: Instant, displayEnd: Instant)
    : (drawn: seq<CrisisWindow>)
    ensures |drawn| <= |catalogue|
    ensures forall w :: w in drawn ==> w in catalogue && Overlaps(w, displayStart, displayEnd)
    ensures forall i :: 0 <= i < |catalogue| && Overlaps(catalogue[i], displayStart, displayEnd)
                        ==> catalogue[i] in drawn
  {
    Filter(catalogue, Meets(displayStart, displayEnd))
  }

  /** Catalogue positions of the drawn windows, in drawing order. */
  function SelectedPositions(catalogue: seq<CrisisWindow>, displayStart: Instant, displayEnd: Instant)
    : (ps: seq<nat>)
    ensures forall k :: 0 <= k < |ps| ==> ps[k] < |catalogue|
    ensures forall k, j :: 0 <= k < j < |ps| ==> ps[k] < ps[j]
    ensures forall i :: 0 <= i < |catalogue| ==>
              (i in ps <==> Overlaps(catalogue[i], displayStart, displayEnd))
  {
    Where(catalogue, Meets(displayStart, displayEnd))
  }

  /** The drawn windows are the catalogue read at strictly increasing positions,
      one per overlapping entry: an order-preserving subsequence in which every
      overlapping entry appears exactly once and no other entry appears. */
  lemma SelectionIsOrderedSubsequence(
    catalogue: seq<CrisisWindow>, displayStart: Instant, displayEnd: Instant)
    ensures SelectOverlapping(catalogue, displayStart, displayEnd)
            == Read(catalogue, SelectedPositions(catalogue, displayStart, displayEnd))
  {
    FilterIsRead(catalogue, Meets(displayStart, displayEnd));
  }

  /** Counting form of the same fact: each window is drawn as often as it
      occurs in the catalogue when it overlaps, and never otherwise. */
  lemma SelectionMultiplicity(
    catalogue: seq<CrisisWindow>, displayStart: Instant, displayEnd: Instant, w: CrisisWindow)
    ensures multiset(SelectOverlapping(catalogue, displayStart, displayEnd))[w]
            == if Overlaps(w, displayStart, displayEnd) then multiset(catalogue)[w] else 0
  {
    FilterMultiplicity(catalogue, Meets(displayStart, displayEnd), w);
  }

  /** `add_crisis_regions` as the loop it is: one pass over the catalogue,
      appending each window that passes the drawing test. */
  method AddCrisisRegions(catalogue: seq<CrisisWindow>, displayStart: Instant, displayEnd: Instant)
    returns (drawn: seq<CrisisWindow>)
    ensures drawn == SelectOverlapping(catalogue, displayStart, displayEnd)
  {
    drawn := [];
    var i := 0;
    while i < |catalogue|
      invariant 0 <= i <= |catalogue|
      invariant drawn == SelectOverlapping(catalogue[..i], displayStart, displayEnd)
    {
      var w := catalogue[i];
      assert catalogue[..i + 1][..i] == catalogue[..i];
      FilterStep(catalogue[..i + 1], Meets(displayStart, displayEnd));
      if Overlaps(w, displayStart, displayEnd) {
        drawn := drawn + [w];
      }
      i := i + 1;
    }
    assert catalogue[..|catalogue|] == catalogue;
  }

  /** A display window lying wholly outside every catalogue window draws nothing. */
  lemma {:induction false} DisjointDisplayDrawsNothing(
    catalogue: seq<CrisisWindow>, displayStart: Instant, displayEnd: Instant)
    requires forall i :: 0 <= i < |catalogue| ==>
               catalogue[i].end < displayStart || catalogue[i].start > displayEnd
    ensures SelectOverlapping(catalogue, displayStart, displayEnd) == []
    decreases |catalogue|
  {
    if |catalogue| > 0 {
      var n := |catalogue| - 1;
      DisjointDisplayDrawsNothing(catalogue[..n], displayStart, displayEnd);
      FilterStep(catalogue, Meets(displayStart, displayEnd));
    }
  }

  /** Over the dashboard's catalogue the selection is three independent
      tests, one per entry, concatenated in insertion order. */
  lemma SelectFromCatalogue(displayStart: Instant, displayEnd: Instant)
    ensures var c := CrisisPeriods();
            SelectOverlapping(c, displayStart, displayEnd)
            == (if Overlaps(c[0], displayStart, displayEnd) then [c[0]] else [])
               + (if Overlaps(c[1], displayStart, displayEnd) then [c[1]] else [])
               + (if Overlaps(c[2], displayStart, displayEnd) then [c[2]] else [])
  {
    FilterOfThree(CrisisPeriods(), Meets(displayStart, displayEnd));
  }

  /** A display window ending exactly at the midnight on which the pandemic
      window opens still draws it: touching endpoints overlap. */
  lemma TouchingEndpointIsDrawn()
    ensures SelectOverlapping(CrisisPeriods(), Midnight(2020, 1, 1), Midnight(2020, 2, 19))
            == [CrisisPeriods()[0]]
  {
    SelectFromCatalogue(Midnight(2020, 1, 1), Midnight(2020, 2, 19));
  }

  /** The catalogue holds midnights while the display start carries the time of
      day of "now": a display starting one microsecond after the pandemic
      window's closing midnight, on the same calendar day, no longer draws it. */
  lemma TimeOfDayMatters()
    ensures SelectOverlapping(CrisisPeriods(), Midnight(2020, 4, 1) + 1, Midnight(2020, 6, 1)) == []
  {
    SelectFromCatalogue(Midnight(2020, 4, 1) + 1, Midnight(2020, 6, 1));
  }
}

=== FILE: lookback.dfy ===
/** Resolution of a lookback period code to the display window that the
    crisis overlay is given.

    Each section of the dashboard resolves its own code set with its own
    if/elif cascade: a fixed number of days (365 per year, leap days ignored)
    is subtracted from "now", and any code the cascade does not list silently
    falls back to three years.  "Now" is a parameter, not a clock read.
 */
module Lookback {
  import opened Calendar

  /** The two pages of the dashboard, which use different code sets. */
  datatype Section = Companies | AllWeather

  /** The `[start, end]` window handed to the crisis overlay. */
  datatype DisplayWindow = DisplayWindow(start: Instant, end: Instant)

  /** The day offset used for any code the cascade does not list. */
  const FallbackDays: nat := 3 * 365

  /** The day offset each section's cascade picks for a code: the section's
      table entry for a listed code, three years for any other. */
  function LookbackDays(section: Section, code: string): (days: nat)
    ensures code in OffsetTable(section) ==> days == OffsetTable(section)[code]
    ensures code !in OffsetTable(section) ==> days == FallbackDays
  {
    match section
    case Companies =>
      if code == "1y" then 365
      else if code == "2y" then 2 * 365
      else if code == "3y" then 3 * 365
      else if code == "5y" then 5 * 365
      else FallbackDays
    case AllWeather =>
      if code == "1y" then 365
      else if code == "3y" then 3 * 365
      else if code == "5y" then 5 * 365
      else if code == "10y" then 10 * 365
      else FallbackDays
  }

  /** The display window for a code at instant `now`: it ends at `now` and
      reaches back a whole number of days, between one and ten years of 365 days. */
  function Resolve(section: Section, code: string, now: Instant): (w: DisplayWindow)
    ensures w.end == now
    ensures w.start <= w.end
    ensures (w.end - w.start) % MicrosPerDay == 0
    ensures 365 <= (w.end - w.start) / MicrosPerDay <= 3650
  {
    DisplayWindow(now - Days(LookbackDays(section, code)), now)
  }

  /** The day offsets each section advertises, as a lookup table. */
  function OffsetTable(section: Section): map<string, nat> {
    match section
    case Companies => map["1y" := 365, "2y" := 730, "3y" := 1095, "5y" := 1825]
    case AllWeather => map["1y" := 365, "3y" := 1095, "5y" := 1825, "10y" := 3650]
  }

  /** The cascade is the table lookup with a three-year default: listed codes
      get their own offset, every other code gets 1095 days. */
  lemma ResolveIsTableLookupWithDefault(section: Section, code: string, now: Instant)
    ensures var days := if code in OffsetTable(section) then OffsetTable(section)[code] else 1095;
            Resolve(section, code, now) == DisplayWindow(now - days * MicrosPerDay, now)
  {
  }

  /** The sidebar choices of each section, label to code, in display order:
      four distinct labels for four distinct codes, all listed in the
      section's table. */
  function PeriodOptions(section: Section): (options: seq<(string, string)>)
    ensures |options| == 4
    ensures forall k :: 0 <= k < |options| ==> options[k].1 in OffsetTable(section)
    ensures forall k, j :: 0 <= k < j < |options| ==> options[k].0 != options[j].0 && options[k].1 != options[j].1
  {
    match section
    case Companies => [("1년", "1y"), ("2년", "2y"), ("3년", "3y"), ("5년", "5y")]
    case AllWeather => [("1년", "1y"), ("3년", "3y"), ("5년", "5y"), ("10년", "10y")]
  }

  /** The pre-selected sidebar choice: three years on both pages. */
  function DefaultOption(section: Section): (index: nat)
    ensures index < |PeriodOptions(section)|
    ensures PeriodOptions(section)[index].1 == "3y"
  {
    match section
    case Companies => 2
    case AllWeather => 1
  }

  /** Every code the sidebar can produce is listed in its section's cascade,
      so the three-year fallback is unreachable from the sidebar; and the
      pre-selected choice resolves to three years in both sections. */
  lemma SidebarNeverFallsBack(section: Section)
    ensures forall k :: 0 <= k < |PeriodOptions(section)| ==> PeriodOptions(section)[k].1 in OffsetTable(section)
    ensures DefaultOption(section) < |PeriodOptions(section)|
    ensures LookbackDays(section, PeriodOptions(section)[DefaultOption(section)].1) == 1095
  {
  }

  /** Distinct listed codes give distinct windows; unlisted ones share the
      three-year window. */
  lemma ListedCodesAreDistinguished(section: Section, a: string, b: string, now: Instant)
    requires a in OffsetTable(section) && b in OffsetTable(section) && a != b
    ensures Resolve(section, a, now) != Resolve(section, b, now)
  {
  }

  /** The code sets differ: "2y" is only listed by the company page and
      "10y" only by the all-weather page; each falls back elsewhere. */
  lemma CodeSetsDiffer(now: Instant)
    ensures Resolve(AllWeather, "2y", now) == Resolve(Companies, "3y", now)
    ensures Resolve(Companies, "10y", now) == Resolve(Companies, "3y", now)
    ensures Resolve(Companies, "2y", now).start > Resolve(AllWeather, "2y", now).start
    ensures Resolve(AllWeather, "10y", now).start < Resolve(Companies, "10y", now).start
  {
  }
}

=== FILE: market_cap.dfy ===
/** Tier selection of `format_market_cap`: which suffix a market
    capitalisation is shown with and by what it is divided first.  The text
    rendering of the scaled amount is not modelled.
 */
module MarketCap {

  const Million: real := 1_000_000.0
  const Billion: real := 1_000_000_000.0
  const Trillion: real := 1_000_000_000_000.0

  /** The four display forms: `$x.xxT`, `$x.xxB`, `$x.xxM` and the plain amount. */
  datatype Tier = Trillions | Billions | Millions | Unscaled

  /** The letter after the amount: T, B or M for the three scaled tiers, each
      letter naming exactly one tier, and none for the plain amount. */
  function Suffix(t: Tier): (letter: string)
    ensures |letter| <= 1
    ensures letter == "" <==> t == Unscaled
    ensures letter == "T" <==> t == Trillions
    ensures letter == "B" <==> t == Billions
    ensures letter == "M" <==> t == Millions
  {
    match t
    case Trillions => "T"
    case Billions => "B"
    case Millions => "M"
    case Unscaled => ""
  }

  /** What the amount is divided by: the smallest amount of the tier's band
      (1 for the plain amount). */
  function Divisor(t: Tier): (d: real)
    ensures d >= 1.0
    ensures t != Unscaled ==> InBand(d, t) && forall x :: InBand(x, t) ==> d <= x
  {
    match t
    case Trillions => Trillion
    case Billions => Billion
    case Millions => Million
    case Unscaled => 1.0
  }

  /** Position of a tier on the number line, smallest amounts first. */
  function Rank(t: Tier): nat {
    match t
    case Unscaled => 0
    case Millions => 1
    case Billions => 2
    case Trillions => 3
  }

  /** The half-open band of amounts each tier stands for; the four bands
      partition the real line. */
  predicate InBand(cap: real, t: Tier) {
    match t
    case Trillions => Trillion <= cap
    case Billions => Billion <= cap < Trillion
    case Millions => Million <= cap < Billion
    case Unscaled => cap < Million
  }

  /** The descending threshold cascade picks the one tier whose band holds
      the amount. */
  function TierOf(cap: real): (t: Tier)
    ensures InBand(cap, t)
    ensures forall u :: InBand(cap, u) ==> u == t
  {
    if cap >= Trillion then Trillions
    else if cap >= Billion then Billions
    else if cap >= Million then Millions
    else Unscaled
  }

  /** What is shown: the tier, the amount after division by its divisor and
      the tier's suffix letter. */
  datatype Rendering = Rendering(tier: Tier, amount: real, suffix: string)

  /** The shown amount times the tier's divisor is the market cap, and every
      scaled tier shows an amount of at least 1, below 1000 except for
      trillions, which have no larger tier to roll over into. */
  function FormatMarketCap(cap: real): (shown: Rendering)
    ensures shown.tier == TierOf(cap)
    ensures shown.suffix == Suffix(shown.tier)
    ensures shown.amount * Divisor(shown.tier) == cap
    ensures shown.tier != Unscaled ==> 1.0 <= shown.amount
    ensures shown.tier == Billions || shown.tier == Millions ==> shown.amount < 1000.0
    ensures shown.tier == Unscaled ==> shown.amount == cap < Million
  {
    var t := TierOf(cap);
    Rendering(t, cap / Divisor(t), Suffix(t))
  }

  /** End to end, the letter shown is decided by the thresholds alone: "T"
      from one trillion up, "B" from one billion below that, "M" from one
      million below that, and no letter under one million. */
  lemma SuffixByThreshold(cap: real)
    ensures FormatMarketCap(cap).suffix == "T" <==> Trillion <= cap
    ensures FormatMarketCap(cap).suffix == "B" <==> Billion <= cap < Trillion
    ensures FormatMarketCap(cap).suffix == "M" <==> Million <= cap < Billion
    ensures FormatMarketCap(cap).suffix == "" <==> cap < Million
  {
  }

  /** A larger market cap never gets a smaller tier. */
  lemma TierMonotone(a: real, b: real)
    requires a <= b
    ensures Rank(TierOf(a)) <= Rank(TierOf(b))
  {
  }

  /** The fallback market cap of a failed info lookup, 0, is shown unscaled. */
  lemma MissingCapShownPlain()
    ensures FormatMarketCap(0.0) == Rendering(Unscaled, 0.0, "")
  {
  }
}

=== FILE: overlay.dfy ===
/** The crisis overlay as each chart requests it: the section's lookback
    code is resolved against "now" and the resulting window is given to the
    crisis-window selection over the dashboard's catalogue.
 */
module Overlay {
  import opened Calendar
  import opened Crisis
  import opened Lookback

  /** Windows drawn behind a chart of `section` for `code` at `now`, in
      catalogue order: exactly the catalogue entries that meet the window
      reaching back from `now`. */
  function OverlayFor(section: Section, code: string, now: Instant): (drawn: seq<CrisisWindow>)
    ensures forall k :: 0 <= k < |drawn| ==> drawn[k] in CrisisPeriods()
    ensures forall i :: 0 <= i < |CrisisPeriods()| ==>
              (CrisisPeriods()[i] in drawn
               <==> Overlaps(CrisisPeriods()[i], now - Days(LookbackDays(section, code)), now))
  {
    var window := Resolve(section, code, now);
    SelectOverlapping(CrisisPeriods(), window.start, window.end)
  }

  /** Reaching further back never hides a window: every window drawn for a
      shorter lookback is drawn for a longer one too. */
  lemma LongerLookbackDrawsMore(section: Section, short: string, long: string, now: Instant)
    requires LookbackDays(section, short) <= LookbackDays(section, long)
    ensures forall w :: w in OverlayFor(section, short, now) ==> w in OverlayFor(section, long, now)
  {
  }

  /** Noon on 10 October 2026, the instant used by the examples below. */
  function ExampleNow(): (now: Instant)
    ensures now == 739899 * MicrosPerDay + MicrosPerDay / 2
  {
    assert Ordinal(2026, 10, 10) == 739899;
    Midnight(2026, 10, 10) + Days(1) / 2
  }

  /** A one-year chart at that instant draws no window. */
  lemma OneYearExample()
    ensures OverlayFor(Companies, "1y", ExampleNow()) == []
  {
    var now := ExampleNow();
    var c := CrisisPeriods();
    CatalogueDays();
    var start := Resolve(Companies, "1y", now).start;
    assert start == now - 365 * MicrosPerDay;
    assert c[2].end < start;
    SelectFromCatalogue(start, now);
  }

  /** A five-year company chart draws the 2022 and SVB windows. */
  lemma FiveYearExample()
    ensures OverlayFor(Companies, "5y", ExampleNow()) == [CrisisPeriods()[1], CrisisPeriods()[2]]
  {
    var now := ExampleNow();
    var c := CrisisPeriods();
    CatalogueDays();
    var start := Resolve(Companies, "5y", now).start;
    assert start == now - 1825 * MicrosPerDay;
    assert c[0].end < start <= c[1].end;
    SelectFromCatalogue(start, now);
  }

  /** A ten-year all-weather chart draws all three windows. */
  lemma TenYearExample()
    ensures OverlayFor(AllWeather, "10y", ExampleNow()) == CrisisPeriods()
  {
    var now := ExampleNow();
    var c := CrisisPeriods();
    CatalogueDays();
    var start := Resolve(AllWeather, "10y", now).start;
    assert start == now - 3650 * MicrosPerDay;
    assert start <= c[0].end && c[2].start <= now;
    SelectFromCatalogue(start, now);
  }
}

=== FILE: series.dfy ===
/** Price-series arithmetic behind the dashboard's charts and tables:
    rebasing closes to 100 at the first observation (all-weather page) and
    the performance summary rows (both pages).

    Closes are exact reals standing in for pandas floats.  A summary field
    that pandas would compute as an infinity or NaN (a division by a zero
    first close) is `None`.
 */
module Series {
  import opened Calendar
  import opened Subsequences

  datatype Option<T> = None | Some(value: T)

  /** One row of a fetched price frame, indexed by its timestamp. */
  datatype Bar = Bar(time: Instant, open: real, high: real, low: real, close: real, volume: real)

  /** The `Close` column of a frame. */
  function Closes(bars: seq<Bar>): (closes: seq<real>)
    ensures |closes| == |bars|
    ensures forall i :: 0 <= i < |bars| ==> closes[i] == bars[i].close
  {
    seq(|bars|, i requires 0 <= i < |bars| => bars[i].close)
  }

  // ---------------------------------------------------------------------
  // Normalisation
  // ---------------------------------------------------------------------

  /** Closes rebased so that the first observation is 100: each value is the
      close as a percentage of the first close. */
  function Normalize(closes: seq<real>): (norm: seq<real>)
    requires |closes| > 0 && closes[0] != 0.0
    ensures |norm| == |closes|
    ensures norm[0] == 100.0
    ensures forall i :: 0 <= i < |closes| ==> norm[i] * closes[0] == closes[i] * 100.0
  {
    seq(|closes|, i requires 0 <= i < |closes| => closes[i] / closes[0] * 100.0)
  }

  /** The inverse rescaling: percentages of `base` back to prices. */
  function Denormalize(norm: seq<real>, base: real): (closes: seq<real>)
    ensures |closes| == |norm|
    ensures forall i :: 0 <= i < |norm| ==> closes[i] * 100.0 == norm[i] * base
  {
    seq(|norm|, i requires 0 <= i < |norm| => norm[i] * base / 100.0)
  }

  /** Rebasing loses nothing: scaling back by the first close recovers the closes. */
  lemma NormalizeRoundTrip(closes: seq<real>)
    requires |closes| > 0 && closes[0] != 0.0
    ensures Denormalize(Normalize(closes), closes[0]) == closes
  {
  }

  /** Re-normalising an already normalised series against its own first value
      (which is 100) changes nothing. */
  lemma NormalizeIdempotent(closes: seq<real>)
    requires |closes| > 0 && closes[0] != 0.0
    ensures Normalize(Normalize(closes)) == Normalize(closes)
  {
  }

  function Scale(closes: seq<real>, k: real): (scaled: seq<real>)
    ensures |scaled| == |closes|
    ensures forall i :: 0 <= i < |closes| ==> scaled[i] == k * closes[i]
  {
    seq(|closes|, i requires 0 <= i < |closes| => k * closes[i])
  }

  /** The rebased series does not depend on the price unit: scaling every
      close by the same non-zero factor gives the same normalised series. */
  lemma NormalizeScaleInvariant(closes: seq<real>, k: real)
    requires |closes| > 0 && closes[0] != 0.0 && k != 0.0
    ensures Normalize(Scale(closes, k)) == Normalize(closes)
  {
    var scaled := Scale(closes, k);
    var a := Normalize(scaled);
    var b := Normalize(closes);
    forall i | 0 <= i < |closes|
      ensures a[i] == b[i]
    {
      assert a[i] * (k * closes[0]) == k * closes[i] * 100.0;
      assert (a[i] * closes[0]) * k == (b[i] * closes[0]) * k;
    }
  }

  /** With a positive first close, rebasing keeps the order of any two closes. */
  lemma NormalizePreservesOrder(closes: seq<real>, i: int, j: int)
    requires |closes| > 0 && closes[0] > 0.0
    requires 0 <= i < |closes| && 0 <= j < |closes|
    ensures closes[i] <= closes[j] <==> Normalize(closes)[i] <= Normalize(closes)[j]
  {
  }

  /** A frame with the `Normalized Close` column added beside the others. */
  datatype NormalizedBar = NormalizedBar(bar: Bar, normalizedClose: real)

  /** Adding the column leaves every existing row untouched and starts the
      new column at 100. */
  function WithNormalizedClose(bars: seq<Bar>): (frame: seq<NormalizedBar>)
    requires |bars| > 0 && bars[0].close != 0.0
    ensures |frame| == |bars|
    ensures forall i :: 0 <= i < |bars| ==> frame[i].bar == bars[i]
    ensures frame[0].normalizedClose == 100.0
    ensures forall i :: 0 <= i < |bars| ==>
              frame[i].normalizedClose * bars[0].close == bars[i].close * 100.0
  {
    var norm := Normalize(Closes(bars));
    seq(|bars|, i requires 0 <= i < |bars| => NormalizedBar(bars[i], norm[i]))
  }

  // ---------------------------------------------------------------------
  // Extremes
  // ---------------------------------------------------------------------

  /** `Close.max()`: the largest close, which is one of the closes. */
  function MaxClose(closes: seq<real>): (m: real)
    requires |closes| > 0
    ensures m in closes
    ensures forall i :: 0 <= i < |closes| ==> closes[i] <= m
    decreases |closes|
  {
    if |closes| == 1 then closes[0]
    else
      var n := |closes| - 1;
      var earlier := MaxClose(closes[..n]);
      if closes[n] > earlier then closes[n] else earlier
  }

  /** `Close.min()`: the smallest close, which is one of the closes. */
  function MinClose(closes: seq<real>): (m: real)
    requires |closes| > 0
    ensures m in closes
    ensures forall i :: 0 <= i < |closes| ==> m <= closes[i]
    decreases |closes|
  {
    if |closes| == 1 then closes[0]
    else
      var n := |closes| - 1;
      var earlier := MinClose(closes[..n]);
      if closes[n] < earlier then closes[n] else earlier
  }

  // ---------------------------------------------------------------------
  // Performance summaries
  // ---------------------------------------------------------------------

  /** Percentage change from `start` to `end`; `None` where the division by a
      zero start would make it infinite or NaN. */
  function ReturnPct(start: real, end: real): (r: Option<real>)
    ensures r.Some? <==> start != 0.0
    ensures r.Some? ==> r.value * start == (end - start) * 100.0
  {
    if start == 0.0 then None else Some((end - start) / start * 100.0)
  }

  /** One row of the company page's performance table (volatility left out). */
  datatype Summary = Summary(startPrice: real, endPrice: real, totalReturn: Option<real>,
                             maxPrice: real, minPrice: real)

  /** The summary of a non-empty series: first and last close, the return
      between them, and extremes that bound every close and are attained. */
  function Summarize(closes: seq<real>): (s: Summary)
    requires |closes| > 0
    ensures s.startPrice == closes[0] && s.endPrice == closes[|closes| - 1]
    ensures s.maxPrice in closes && s.minPrice in closes
    ensures forall i :: 0 <= i < |closes| ==> s.minPrice <= closes[i] <= s.maxPrice
    ensures s.minPrice <= s.startPrice <= s.maxPrice && s.minPrice <= s.endPrice <= s.maxPrice
    ensures s.totalReturn.Some? <==> closes[0] != 0.0
    ensures s.totalReturn.Some? ==> s.totalReturn.value * s.startPrice == (s.endPrice - s.startPrice) * 100.0
  {
    var start := closes[0];
    var end := closes[|closes| - 1];
    Summary(start, end, ReturnPct(start, end), MaxClose(closes), MinClose(closes))
  }

  /** A one-observation series has no movement: extremes, start and end all
      coincide, and the return is zero whenever it is defined. */
  lemma SingletonSummary(x: real)
    ensures var s := Summarize([x]);
            s.maxPrice == s.minPrice == s.startPrice == s.endPrice == x
            && (x != 0.0 ==> s.totalReturn == Some(0.0))
            && (x == 0.0 ==> s.totalReturn == None)
  {
  }

  /** Closes 100, 110, 90: start 100, end 90, return -10%, high 110, low 90. */
  lemma SummarizeExample()
    ensures Summarize([100.0, 110.0, 90.0]) == Summary(100.0, 90.0, Some(-10.0), 110.0, 90.0)
  {
  }

  /** Closes 50, 110, 90 rebase to 100, 220, 180. */
  lemma NormalizeExample()
    ensures Normalize([50.0, 110.0, 90.0]) == [100.0, 220.0, 180.0]
  {
  }

  /** One row of the all-weather page's performance table. */
  datatype AllWeatherRow = AllWeatherRow(startPrice: real, endPrice: real,
                                         normalizedStart: real, normalizedEnd: real,
                                         totalReturn: real)

  /** The all-weather row reads its return off the rebased series as
      "last minus first"; since the rebased series starts at 100 this is the
      same percentage the company page computes from raw closes. */
  function AllWeatherSummary(closes: seq<real>): (row: AllWeatherRow)
    requires |closes| > 0 && closes[0] != 0.0
    ensures row.startPrice == closes[0] && row.endPrice == closes[|closes| - 1]
    ensures row.normalizedStart == 100.0
    ensures row.normalizedEnd * row.startPrice == row.endPrice * 100.0
    ensures Summarize(closes).totalReturn == Some(row.totalReturn)
  {
    var norm := Normalize(closes);
    var n := |closes| - 1;
    NormalizedReturnIsTotalReturn(closes);
    AllWeatherRow(closes[0], closes[n], norm[0], norm[n], norm[n] - norm[0])
  }

  /** Last-minus-first of the rebased series equals the raw percentage return. */
  lemma NormalizedReturnIsTotalReturn(closes: seq<real>)
    requires |closes| > 0 && closes[0] != 0.0
    ensures var norm := Normalize(closes);
            norm[|closes| - 1] - norm[0] == (closes[|closes| - 1] - closes[0]) / closes[0] * 100.0
  {
  }

  // ---------------------------------------------------------------------
  // Loading and the tables
  // ---------------------------------------------------------------------

  /** What a fetch hands back for one named symbol: `None` when it raised. */
  type Fetched = (string, Option<seq<real>>)

  predicate Usable(f: Fetched) {
    f.1.Some? && |f.1.value| > 0
  }

  /** The value of each fetch in a list of usable ones, under its name. */
  function Unwrap(fs: seq<Fetched>): (named: seq<(string, seq<real>)>)
    requires forall k :: 0 <= k < |fs| ==> Usable(fs[k])
    ensures |named| == |fs|
  {
    seq(|fs|, k requires 0 <= k < |fs| =>
          var f := fs[k];
          assert Usable(f);
          (f.0, f.1.value))
  }

  /** The symbols kept for display: fetched without error and non-empty, in
      selection order.  Every other symbol only produces a warning.  The page
      stores them in a dictionary keyed by name; no name repeats, since both
      callers iterate over distinct keys (a multiselect over the company table
      at line 130, the `ALL_WEATHER_ASSETS` keys at line 371), so a list in
      selection order is the same thing. */
  function Loaded(fetched: seq<Fetched>): (kept: seq<(string, seq<real>)>)
    ensures |kept| <= |fetched|
    ensures forall k :: 0 <= k < |kept| ==> |kept[k].1| > 0
    ensures forall k :: 0 <= k < |kept| ==> (kept[k].0, Some(kept[k].1)) in fetched
    ensures forall i :: 0 <= i < |fetched| && Usable(fetched[i]) ==>
              (fetched[i].0, fetched[i].1.value) in kept
  {
    var usable := Filter(fetched, Usable);
    var kept := Unwrap(usable);
    assert forall k :: 0 <= k < |kept| ==> kept[k] == (usable[k].0, usable[k].1.value);
    assert forall i :: 0 <= i < |fetched| && Usable(fetched[i]) ==>
             exists k :: 0 <= k < |usable| && usable[k] == fetched[i];
    kept
  }

  /** Positions of the usable fetches, in selection order. */
  function UsablePositions(fetched: seq<Fetched>): (ps: seq<nat>)
    ensures forall k :: 0 <= k < |ps| ==> ps[k] < |fetched|
    ensures forall k, j :: 0 <= k < j < |ps| ==> ps[k] < ps[j]
    ensures forall i :: 0 <= i < |fetched| ==> (i in ps <==> Usable(fetched[i]))
  {
    Where(fetched, Usable)
  }

  /** The fetched series read at the given usable positions, in the given order. */
  function SeriesAt(fetched: seq<Fetched>, ps: seq<nat>): (picked: seq<(string, seq<real>)>)
    requires forall k :: 0 <= k < |ps| ==> ps[k] < |fetched| && Usable(fetched[ps[k]])
    ensures |picked| == |ps|
  {
    Unwrap(Read(fetched, ps))
  }

  /** The kept symbols are the usable fetches read at strictly increasing
      positions: selection order is kept, each usable fetch is kept exactly
      once and no other fetch is kept. */
  lemma LoadedIsOrderedSubsequence(fetched: seq<Fetched>)
    ensures Loaded(fetched) == SeriesAt(fetched, UsablePositions(fetched))
  {
    FilterIsRead(fetched, Usable);
  }

  predicate HasData(entry: (string, seq<real>)) {
    |entry.1| > 0
  }

  /** The summary row of each series in a list of non-empty ones. */
  function Rows(series: seq<(string, seq<real>)>): (rows: seq<(string, Summary)>)
    requires forall k :: 0 <= k < |series| ==> HasData(series[k])
    ensures |rows| == |series|
  {
    seq(|series|, k requires 0 <= k < |series| =>
          var entry := series[k];
          assert HasData(entry);
          (entry.0, Summarize(entry.1)))
  }

  /** The company page's performance table: a row for every non-empty series,
      in order. */
  function PerformanceTable(series: seq<(string, seq<real>)>): (rows: seq<(string, Summary)>)
    ensures |rows| <= |series|
    ensures (forall i :: 0 <= i < |series| ==> |series[i].1| > 0) ==>
              |rows| == |series|
              && forall k :: 0 <= k < |rows| ==>
                   rows[k].0 == series[k].0 && rows[k].1 == Summarize(series[k].1)
  {
    FilterKeepsAll(series, HasData);
    Rows(Filter(series, HasData))
  }

  /** Positions of the series that get a row, in table order. */
  function RowPositions(series: seq<(string, seq<real>)>): (ps: seq<nat>)
    ensures forall k :: 0 <= k < |ps| ==> ps[k] < |series|
    ensures forall k, j :: 0 <= k < j < |ps| ==> ps[k] < ps[j]
    ensures forall i :: 0 <= i < |series| ==> (i in ps <==> |series[i].1| > 0)
  {
    Where(series, HasData)
  }

  /** The summary rows of the series at the given non-empty positions. */
  function RowsAt(series: seq<(string, seq<real>)>, ps: seq<nat>): (rows: seq<(string, Summary)>)
    requires forall k :: 0 <= k < |ps| ==> ps[k] < |series| && |series[ps[k]].1| > 0
    ensures |rows| == |ps|
  {
    Rows(Read(series, ps))
  }

  /** The table is the summaries of the non-empty series read at strictly
      increasing positions: table order is kept, each non-empty series gets
      exactly one row and an empty series gets none. */
  lemma TableIsOrderedSubsequence(series: seq<(string, seq<real>)>)
    ensures PerformanceTable(series) == RowsAt(series, RowPositions(series))
  {
    FilterIsRead(series, HasData);
  }

  /** Loading already drops empty series, so the table's own emptiness guard
      never skips anything: one row per loaded symbol. */
  lemma TableCoversLoaded(fetched: seq<Fetched>)
    ensures |PerformanceTable(Loaded(fetched))| == |Loaded(fetched)|
  {
  }
}

=== FILE: subsequences.dfy ===
/** The one-pass filter the dashboard applies to three lists (crisis windows,
    fetched symbols, table rows), and what it keeps: the list read back at
    strictly increasing positions, one per accepted element.
 */
module Subsequences {

  /** The elements of `s` that `keep` accepts, in their original order. */
  function Filter<T>(s: seq<T>, keep: T -> bool): (kept: seq<T>)
    ensures |kept| <= |s|
    ensures forall x :: x in kept ==> x in s && keep(x)
    ensures forall i :: 0 <= i < |s| && keep(s[i]) ==> s[i] in kept
    decreases |s|
  {
    if |s| == 0 then []
    else
      var n := |s| - 1;
      var earlier := Filter(s[..n], keep);
      if keep(s[n]) then earlier + [s[n]] else earlier
  }

  /** Positions of the elements of `s` that `keep` accepts, in increasing order. */
  function Where<T>(s: seq<T>, keep: T -> bool): (ps: seq<nat>)
    ensures forall k :: 0 <= k < |ps| ==> ps[k] < |s|
    ensures forall k, j :: 0 <= k < j < |ps| ==> ps[k] < ps[j]
    ensures forall i :: 0 <= i < |s| ==> (i in ps <==> keep(s[i]))
    decreases |s|
  {
    if |s| == 0 then []
    else
      var n := |s| - 1;
      var earlier := Where(s[..n], keep);
      if keep(s[n]) then earlier + [n] else earlier
  }

  /** `s` read at the given positions, in the given order. */
  function Read<T>(s: seq<T>, ps: seq<nat>): (picked: seq<T>)
    requires forall k :: 0 <= k < |ps| ==> ps[k] < |s|
    ensures |picked| == |ps|
  {
    seq(|ps|, k requires 0 <= k < |ps| => s[ps[k]])
  }

  /** Positions below `n` read the same in `s` and in its first `n` elements. */
  lemma ReadOfPrefix<T>(s: seq<T>, n: nat, ps: seq<nat>)
    requires n <= |s|
    requires forall k :: 0 <= k < |ps| ==> ps[k] < n
    ensures Read(s, ps) == Read(s[..n], ps)
  {
  }

  /** Reading one more position appends that position's element. */
  lemma ReadAppend<T>(s: seq<T>, ps: seq<nat>, n: nat)
    requires n < |s|
    requires forall k :: 0 <= k < |ps| ==> ps[k] < |s|
    ensures Read(s, ps + [n]) == Read(s, ps) + [s[n]]
  {
  }

  /** One step of the filter and of its positions: an accepted last element
      adds itself and its position, a rejected one adds neither. */
  lemma FilterStep<T>(s: seq<T>, keep: T -> bool)
    requires |s| > 0
    ensures var n := |s| - 1;
            if keep(s[n]) then
              Where(s, keep) == Where(s[..n], keep) + [n]
              && Filter(s, keep) == Filter(s[..n], keep) + [s[n]]
            else
              Where(s, keep) == Where(s[..n], keep)
              && Filter(s, keep) == Filter(s[..n], keep)
  {
  }

  /** On three elements the filter is three independent tests, concatenated
      in order. */
  lemma FilterOfThree<T>(s: seq<T>, keep: T -> bool)
    requires |s| == 3
    ensures Filter(s, keep)
            == (if keep(s[0]) then [s[0]] else [])
               + (if keep(s[1]) then [s[1]] else [])
               + (if keep(s[2]) then [s[2]] else [])
  {
    var first := if keep(s[0]) then [s[0]] else [];
    var second := if keep(s[1]) then [s[1]] else [];
    assert Filter(s[..1], keep) == first by {
      FilterStep(s[..1], keep);
      assert s[..1][..0] == [];
    }
    assert Filter(s[..2], keep) == first + second by {
      FilterStep(s[..2], keep);
      assert s[..2][..1] == s[..1];
    }
    FilterStep(s, keep);
  }

  /** The filter keeps exactly the elements at the accepted positions, in
      order: an order-preserving subsequence in which every accepted element
      appears once and no rejected element appears. */
  lemma {:induction false} FilterIsRead<T>(s: seq<T>, keep: T -> bool)
    ensures Filter(s, keep) == Read(s, Where(s, keep))
    decreases |s|
  {
    if |s| > 0 {
      var n := |s| - 1;
      FilterIsRead(s[..n], keep);
      var ps := Where(s[..n], keep);
      ReadOfPrefix(s, n, ps);
      FilterStep(s, keep);
      if keep(s[n]) {
        ReadAppend(s, ps, n);
      }
    }
  }

  /** Counting form: an accepted value is kept as often as it occurs, a
      rejected one never. */
  lemma {:induction false} FilterMultiplicity<T>(s: seq<T>, keep: T -> bool, x: T)
    ensures multiset(Filter(s, keep))[x] == if keep(x) then multiset(s)[x] else 0
    decreases |s|
  {
    if |s| > 0 {
      var n := |s| - 1;
      FilterMultiplicity(s[..n], keep, x);
      assert s == s[..n] + [s[n]];
    }
  }

  /** A filter that accepts everything keeps everything. */
  lemma {:induction false} FilterKeepsAll<T>(s: seq<T>, keep: T -> bool)
    ensures (forall i :: 0 <= i < |s| ==> keep(s[i])) ==> Filter(s, keep) == s
    decreases |s|
  {
    if |s| > 0 {
      var n := |s| - 1;
      FilterKeepsAll(s[..n], keep);
      assert s == s[..n] + [s[n]];
    }
  }
}
